=== FILE: README.md ===
# Movie streaming server: catalogue, accounts and start-up rules in Dafny

This project models the sequential decision logic of a Go movie-streaming
backend (Gin handlers over MongoDB) and proves properties of it. Covered:

* the movie catalogue rules: the rating-name threshold table, the admin
  review update, movie creation, and the read queries (by imdb id, top
  rated, by genre, recommendations);
* user registration and login, treated as transitions of the user
  collection, with the HTTP status of every outcome;
* the connection-string normalisation and the fatal checks at start-up;
* the validation constraints on movie documents.

The collections are sequences (`seq<Movie>`, `seq<User>`). Each handler is a
pure function from the collection and the request to the response it sends
and, for writes, the collection afterwards. Most handlers run their store
work in a goroutine and race it against a 10-second timer. The exceptions
are the admin review update, which calls `UpdateOne` directly, and the user
lookup at the start of the recommendation handler. Both calls run under a
10-second `context.WithTimeout` but race no goroutine, so an expired deadline
can only surface as the call's own error; they are modelled by their error
input alone. The race is modelled by
two inputs: the store call's error, if any, and a flag `late` saying the
worker missed the deadline. A late worker is not cancelled, so
its writes still happen although the client gets 408. The model keeps that
behaviour.

Modules:

| module | file | models |
|---|---|---|
| Wrappers | wrappers.dfy | Option, Result |
| Text | text.dfy | `strings.Contains`, ASCII lower-casing, case-insensitive containment |
| Models | models.dfy | Genre, Ranking, Movie, User, and the validator's constraints and violation list |
| Queries | queries.dfy | filter documents, first-match lookup, descending sort on ranking value, limit |
| Http | http.dfy | status codes, replies, the worker/timer race |
| MovieController | movie_controller.dfy | the movie handlers |
| CatalogueProperties | catalogue_properties.dfy | properties relating several movie handlers |
| UserController | user_controller.dfy | registration and login |
| UserProperties | user_properties.dfy | invariants of the user collection, register-then-login |
| Connection | connection.dfy | `dbInstance`, `OpenCollection` |

Two behaviours of the code are worth knowing:

* Login answers an unknown email and a wrong password both with 401, but
  with different texts: "Invalid credentials" (controllers/user_controller.go:139)
  and "Wrong Password" (controllers/user_controller.go:147). A client can
  therefore tell whether an email is registered.
  `UserProperties.LoginFailuresShareStatus` states this.
* The genre search passes the query parameter to `$regex` with the `i`
  option (controllers/movie_controller.go:238). Here it is a literal
  substring with ASCII case folding.

## Model

| member | source | states |
|---|---|---|
| MovieController.RatingName | controllers/movie_controller.go:377-390 | each of the five names is given exactly on its rating band: ≥9 excellent, 7–8 good, 5–6 average, 3–4 poor, anything lower terrible |
| MovieController.RatingNameMonotone | controllers/movie_controller.go:377-390 | a higher rating never gets a lower name on the scale, and every rating gets one of the five names |
| CatalogueProperties.RatingNameExamples | controllers/movie_controller.go:324-390 | ratings 9, 7, 5, 3, 1 get excellent, good, average, poor, terrible; ratings 0 and 11 fail request validation |
| MovieController.ReviewViolations | controllers/movie_controller.go:324-337 | a review request breaks no constraint (`ValidReviewRequest`) exactly when the review is non-empty and the rating is in [1,10]; a rating of 0 fails `required`, below 1 fails `min`, above 10 fails `max` |
| MovieController.AdminReviewUpdate | controllers/movie_controller.go:316-374 | empty id, unbindable body and invalid request give 400 and leave the store alone; an invalid request gets "Validation failed" with exactly its `ReviewViolations` as details. A store failure gives 500 "Failed to update movie". No movie with the id gives 404 "Movie not found" and no change. The reply is 200 exactly when the id is non-empty, the request binds and is valid, the update succeeds and some movie has the id. Then only the first movie with the id changes, and only its review and ranking (value = rating, name = rating name). The response echoes review, rating and name |
| CatalogueProperties.ReviewUpdateIdempotent | controllers/movie_controller.go:342-372 | applying the same review update twice gives the same store and the same response as applying it once |
| CatalogueProperties.ReviewVisibleToGetMovie | controllers/movie_controller.go:342-372 | after a successful update, a lookup by the same imdb id returns a movie carrying the new review and ranking |
| CatalogueProperties.ReviewUpdateKeepsCatalogueValid | controllers/movie_controller.go:339-351 | a review update keeps a collection of valid movies valid |
| MovieController.MakeMovies | controllers/movie_controller.go:272-314 | unbindable JSON gives 400, and an invalid movie gives 400 with its violations; neither touches the store. The store grows by exactly the submitted movie iff it is valid and the insert succeeds. 201 is sent iff that happened in time. For a valid movie, a late worker gives 408 "request timeout", and an in-time insert failure gives 500 with the error text and no change |
| CatalogueProperties.CreatedMovieIsFound | controllers/movie_controller.go:284-298 | a movie created successfully is returned by a lookup on its imdb id |
| MovieController.GetMovie | controllers/movie_controller.go:139-176 | on success the list holds exactly the movies with the given imdb id, each as often as in the store, possibly none. A late worker gives 408 "request timeout"; an in-time store error gives 500 with its text |
| MovieController.GetTopRatedMovies | controllers/movie_controller.go:178-220 | on success the list is a `TopRatedSelection`: at most 20 movies, never more copies of one than the store holds, each ranked ≥ 7, in non-increasing ranking order; whenever a movie ranked ≥ 7 has fewer copies in the list than in the store, 20 were returned and all rank at least as high as it. `total_found` is the length and `minimum_rating` is 7. A late worker gives 408 and an in-time store error 500 with its text |
| MovieController.TopRatedQuery | controllers/movie_controller.go:188-191 | any list meeting the find's guarantees for the filter "ranking value ≥ 7", sorted and limited to 20, is a `TopRatedSelection`: the order and the left-out rule carry over from the sort order to ranking values |
| MovieController.GetMoviesByGenre | controllers/movie_controller.go:222-270 | an empty genre gives 400. On success the list is a `GenreSelection`: at most 20 movies, never more copies of one than the store holds, each with a genre name containing the parameter, case ignored (`Text.ContainsFold`); whenever such a movie has fewer copies in the list than in the store, 20 were returned. The genre is echoed and `total_found` is the length. A late worker gives 408 and an in-time store error 500 with its text |
| MovieController.GenreQuery | controllers/movie_controller.go:237-241 | any list meeting the limited find's guarantees for the case-insensitive genre-name pattern is a `GenreSelection` |
| CatalogueProperties.GenreSearchIgnoresCase | controllers/movie_controller.go:238 | a search for "action" matches a movie whose genre name is "Action" |
| MovieController.GetUserById | controllers/movie_controller.go:393-405 | a lookup error is passed on; otherwise a user with the id is found whenever one exists, and the user found is the first one in the collection with that id; with no such user the error is "mongo: no documents in result" |
| MovieController.GenreNames | controllers/movie_controller.go:424-427 | the favourite genre names, one per genre, in the user's order |
| MovieController.RecommendFrom | controllers/movie_controller.go:446-467 | the result is a `RecommendSelection`: at most 10 store movies, never more copies of one than the store holds, each `Recommendable` (ranked ≥ 6 and with a genre name exactly equal to a favourite name), in non-increasing ranking order; whenever a recommendable movie has fewer copies in the result than in the store, 10 were returned and all rank at least as high as it |
| MovieController.RecommendQuery | controllers/movie_controller.go:446-458 | any list meeting the find's guarantees for the recommendation filter, sorted and limited to 10, is a `RecommendSelection` |
| MovieController.RecommendFilterMeaning | controllers/movie_controller.go:447-450 | the filter document (`Queries.Matches` of the two conditions) matches a movie exactly when it is `Recommendable`: ranked ≥ 6 and with a genre name among the given names |
| MovieController.GetRecommendedMovies | controllers/movie_controller.go:408-483 | an empty user id gives 400 and a failed user lookup gives 404. A user with no favourites gets the 200 empty-state reply. Otherwise the reply is the recommendation query for the favourite names, `based_on_genres` in the user's order and `total_found` the length. For a user with favourites, a late worker gives 408, an in-time find error 500 with its text, and otherwise the reply is a recommendation |
| Http.Race | controllers/movie_controller.go:164-174 | a late worker gives 408 "request timeout"; otherwise the worker's value gives the success status and its error gives 500 with the error text |
| Queries.FirstIndex | controllers/movie_controller.go:356 | the position found satisfies the condition and no earlier one does; none is found only if no position satisfies it |
| Queries.Where | controllers/movie_controller.go:149 | the filtered collection keeps every matching document as often as it occurs and no other |
| Queries.WhereMembers | controllers/movie_controller.go:149 | a movie is in the filtered collection iff it is in the store and matches the filter document (`Queries.Matches`: imdb id equality, ranking at least a bound, genre name containing a pattern case-insensitively, genre name in a list, and the conjunction of two) |
| Queries.Insert | controllers/movie_controller.go:189 | inserting into a sorted sequence keeps it sorted and adds exactly the one movie |
| Queries.OutranksTotalPreorder | controllers/movie_controller.go:189 | the sort order (`Queries.Outranks`; `SortedDesc` is pairwise outranking) is reflexive, total and transitive, unranked movies last, and between ranked movies it is the ranking value order |
| Queries.SortDesc | controllers/movie_controller.go:189 | the sorted collection is in descending ranking order (unranked last) and is a permutation of the input |
| Queries.LimitKeepsBest | controllers/movie_controller.go:189 | cutting a sorted sequence keeps it sorted, and a movie with fewer copies after the cut than before is outranked by everything kept |
| Queries.Limit | controllers/movie_controller.go:239 | `SetLimit(n)`: a prefix of the input, of length n unless the input is shorter |
| Queries.FindLimited | controllers/movie_controller.go:238-241 | matching store documents, never more copies of one than the filtered store holds; the length is the number of matches capped at n; a matching document with fewer copies in the result than in the store means n were returned |
| Queries.FindTopRanked | controllers/movie_controller.go:188-191 | matching store documents, never more copies of one than the filtered store holds, in descending order; the length is the number of matches capped at n; a matching document with fewer copies in the result than in the store means n were returned, all outranking it |
| Queries.TopRankedByValue | controllers/movie_controller.go:188-189 | when the filter admits only ranked movies, the results are ranked, in non-increasing ranking value, and a match with fewer copies in the results than in the store means n were returned, none ranking below it |
| Text.ContainsFoldIgnoresCase | controllers/movie_controller.go:238 | case-insensitive matching (`Text.ContainsFold`: substring containment, `Text.Contains`, after ASCII lower-casing both sides) gives the same answer when either side is lower-cased first |
| Models.StringViolation | models/movieModel.go:45 | a string field passes `required,min,max` exactly when it is non-empty and its length is within the bounds, with at most one failing tag |
| Models.GenreViolations | models/movieModel.go:32-35 | a genre breaks no constraint exactly when its id is non-zero and its name has length in [2,100] |
| Models.GenreListViolations | models/movieModel.go:48 | a genre list breaks no constraint exactly when every element is a valid genre, and only genre fields are reported |
| Models.MovieViolations | models/movieModel.go:42-51 | a movie breaks no constraint exactly when it is valid (`Models.ValidMovie`, with `ValidGenre` and `ValidRanking` for the nested documents). An empty imdb id, youtube id or a nil genre list fails `required`. A title of length 1 fails `min` and one over 500 fails `max`. A non-URL poster fails `url` |
| Models.OptionalFieldsNeverInvalidate | models/movieModel.go:49-50 | dropping the ranking or setting any admin review never makes a valid movie invalid |
| UserController.CountByEmail | controllers/user_controller.go:53 | the count is positive exactly when some user has the email |
| UserController.RegisterWorker | controllers/user_controller.go:49-79 | a count error or a taken email ends the worker with no change. It succeeds exactly when the email is free, the filled-in record validates and the insert succeeds. Success appends exactly that record (`NewRecord`: the submitted user with the fresh id, `createdAt` and `updatedAt` both taken from the one clock input `now`, and the hashed password) |
| UserController.RegisterFailure | controllers/user_controller.go:100-106 | a worker error is answered with its text, with 409 exactly for "User with this email already exists" and 500 otherwise |
| UserController.RegisterUser | controllers/user_controller.go:29-112 | unbindable JSON gives 400 and a hashing failure 500, both with no store access. A taken email gives 409 (408 if late) and no change. Once the password is hashed: a late worker gives 408; a count error, a validation error or an insert error is answered through `RegisterFailure` (500 unless it is the duplicate text) with no change; a signing failure gives 500 "Failed to generate token". 201 is sent exactly when the worker inserted in time and the access token was signed. Any change is one appended record with the submitted email, the fresh id and the hashed password, which passed validation. 201 carries the id, "First Last", email, role, genres and the signed access token |
| UserController.UpdateAllTokens | controllers/user_controller.go:160 | only the token pair of the first record with the id is overwritten with the new pair; everything else is unchanged |
| UserController.LoginWorker | controllers/user_controller.go:131-175 | an unknown email gives "Invalid credentials" and a wrong password for the first record with the email "Wrong Password", with no change; every failure leaves the store unchanged. It succeeds exactly when the password checks, both signers succeed and the token update succeeds; then it returns that user's fields with both tokens and stores them on the user |
| UserController.Login | controllers/user_controller.go:114-185 | unbindable JSON gives 400. An unknown email gives 401 "Invalid credentials" and a wrong password 401 "Wrong Password", both with no change. A late worker gives 408 "timeout"; every other error on a bound body is 401. The reply is 200 exactly when the body binds, the worker is in time, the first user with the email has a matching password, both signers succeed and the token update succeeds. Only token pairs change, and the store changes only when the body binds, the first user with the email signs in and the token update succeeds; an in-time error leaves it unchanged. Success copies the user's id, names, email, role and genres, carries both signed tokens and stores them on the user |
| UserProperties.RegisterKeepsEmailsUnique | controllers/user_controller.go:53-78 | registration keeps emails unique across the collection |
| UserProperties.RegisterKeepsIdsUnique | controllers/user_controller.go:63 | with an id no stored user has, registration keeps user ids unique |
| UserProperties.LoginKeepsKeysUnique | controllers/user_controller.go:160-164 | login keeps emails and ids unique |
| UserProperties.RegisterThenLogin | controllers/user_controller.go:63-173 | after a successful registration, a login with the same email and password succeeds and returns the new user's id, provided the checker accepts the stored hash and both signers succeed |
| UserProperties.LoginFailuresShareStatus | controllers/user_controller.go:134-180 | an unknown email and a wrong password both give 401, with the texts "Invalid credentials" and "Wrong Password" |
| Connection.NormaliseUri | database/database_connection.go:56-62 | the input is a prefix of the result. The result equals the input iff it already contains "ssl=true" or "tls=true". Otherwise the suffix is "&ssl=true&tlsInsecure=false" when the input contains "?" and "?ssl=true&tlsInsecure=false" when not |
| Connection.NormalisedAsksForTls | database/database_connection.go:56-62 | the normalised string always contains "ssl=true" or "tls=true" |
| Connection.NormaliseIdempotent | database/database_connection.go:56-62 | normalising twice equals normalising once |
| Connection.DbInstance | database/database_connection.go:39-88 | an empty MONGODB_URI is fatal whatever connect and ping would do. Start-up succeeds iff the setting is present and connect and ping succeed, and it then connects with the normalised string, which asks for TLS |
| Connection.CollectionNeedsBothSettings | database/database_connection.go:49-122 | a collection opens exactly when MONGODB_URI and DATABASE_NAME are both set and connect and ping succeed; a missing setting or a failed connect or ping stops start-up |
| Connection.OpenCollection | database/database_connection.go:97-122 | an empty DATABASE_NAME is fatal for every collection; otherwise a collection opens iff the client is ready, in the named database |

## Left out

- The goroutine, channel and `select` machinery, and the 10 s and 100 s deadlines, are not modelled: each handler returns one outcome, and the timer winning is the input `late`.
- The MongoDB driver (cursors, connection pool, retries, TLS configuration) is not modelled. The collections are sequences, and the failure of each store call is an input. Within equal ranking values the sort keeps one admissible order, and only sortedness and being a permutation are stated.
- The store-assigned `_id` of a movie is not modelled: no operation reads it.
- The `$regex` in the genre search is treated as a literal substring, and the `i` option as ASCII case folding; regular-expression syntax and Unicode folding are not modelled.
- bcrypt (`HashPassword`, `CompareHashAndPassword`) and token signing are inputs of type `Services`: their code is not part of this model.
- UserController.UpdateAllTokens: utils/ is not part of this model. It is assumed to overwrite the token pair of the first record with the user id; any timestamp it sets is not modelled.
- models/userModel.go is not part of this model. The User fields are those the user controller reads and writes, and the validator on a user record is the abstract `validate` service.
- The validator's `url` check is the abstract predicate `isUrl`. Validation error text is represented by the (field, tag) list and not by its wording.
- `time.Now` and `bson.NewObjectID` are the inputs `now` and `freshId`. The code calls `time.Now` separately for `CreatedAt` and `UpdatedAt` (controllers/user_controller.go:64-65), so the two may differ by the time between the calls; the model gives both the one input `now`. Fresh ids are assumed, not produced: `UserProperties.RegisterKeepsIdsUnique` requires one.
- UserController.LoginWorker: in the source, a lookup that fails with an error other than "no documents" falls through to the password check with an empty user. The model's lookup only finds a record or none, so that path is not modelled.
- The non-atomic count-then-insert race between concurrent registrations is not modelled. The model is sequential.
- `GetMovies` (the unfiltered list) is not modelled, as it is outside the modelled core and makes no decision. Also not modelled: Gin routing and middleware, the health endpoint, CORS, the port default, `.env` loading, logging, and JSON serialisation (for example a nil slice rendered as `null`).

=== FILE: catalogue_properties.dfy ===
/** Properties relating several movie handlers to each other. */
module CatalogueProperties {
  import opened Wrappers
  import opened Text
  import opened Models
  import opened Queries
  import opened Http
  import opened MovieController

  /** Repeating a review update changes nothing further and gets the same response. */
  lemma ReviewUpdateIdempotent(store: seq<Movie>, imdbId: string, q: ReviewRequest)
    ensures var once := AdminReviewUpdate(store, imdbId, Some(q), false);
            AdminReviewUpdate(once.store, imdbId, Some(q), false) == once
  {
    var once := AdminReviewUpdate(store, imdbId, Some(q), false);
    if imdbId != "" && ValidReviewRequest(q) {
      var p := HasImdbId(imdbId);
      match FirstIndex(store, p)
      case None =>
      case Some(i) =>
        var after := store[i := WithReview(store[i], q)];
        assert once.store == after;
        FirstIndexSamePattern(after, store, p);
        assert WithReview(after[i], q) == after[i];
        assert after[i := WithReview(after[i], q)] == after;
    }
  }

  /** After a successful review update, looking the movie up shows the new review and ranking. */
  lemma ReviewVisibleToGetMovie(store: seq<Movie>, imdbId: string, q: ReviewRequest)
    requires AdminReviewUpdate(store, imdbId, Some(q), false).reply.Ok?
    ensures var got := GetMovie(AdminReviewUpdate(store, imdbId, Some(q), false).store, imdbId, None, false);
            && got.Ok?
            && exists m :: m in got.value && m.adminReview == Some(q.adminReview)
                 && m.ranking == Some(Ranking(q.rating, RatingName(q.rating)))
  {
    var after := AdminReviewUpdate(store, imdbId, Some(q), false).store;
    var i := FirstIndex(store, HasImdbId(imdbId)).value;
    assert store[i].imdbId == imdbId && forall j :: 0 <= j < i ==> store[j].imdbId != imdbId;
    var m := after[i];
    assert m.adminReview == Some(q.adminReview) && m.ranking == Some(Ranking(q.rating, RatingName(q.rating)));
    assert m.imdbId == imdbId;
    assert multiset(after)[m] > 0;
    var got := GetMovie(after, imdbId, None, false);
    assert multiset(got.value)[m] > 0;
    assert m in got.value;
  }

  /** A review update keeps every valid movie of the collection valid. */
  lemma ReviewUpdateKeepsCatalogueValid(store: seq<Movie>, imdbId: string, body: Option<ReviewRequest>,
                                        updateError: bool, isUrl: string -> bool)
    requires forall i :: 0 <= i < |store| ==> ValidMovie(store[i], isUrl)
    ensures var after := AdminReviewUpdate(store, imdbId, body, updateError).store;
            forall i :: 0 <= i < |after| ==> ValidMovie(after[i], isUrl)
  {
    var r := AdminReviewUpdate(store, imdbId, body, updateError);
    if r.store != store {
      var q := body.value;
      var i := FirstIndex(store, HasImdbId(imdbId)).value;
      assert ValidReviewRequest(q);
      assert r.store == store[i := WithReview(store[i], q)];
      assert ValidRanking(Ranking(q.rating, RatingName(q.rating)));
      assert ValidMovie(WithReview(store[i], q), isUrl);
    }
  }

  /** A movie created successfully is returned by a lookup on its imdb id. */
  lemma CreatedMovieIsFound(store: seq<Movie>, m: Movie, isUrl: string -> bool)
    requires MakeMovies(store, Some(m), isUrl, None, false).reply.Ok?
    ensures var got := GetMovie(MakeMovies(store, Some(m), isUrl, None, false).store, m.imdbId, None, false);
            got.Ok? && m in got.value
  {
    var after := MakeMovies(store, Some(m), isUrl, None, false).store;
    assert after == store + [m];
    assert m in after;
    var got := GetMovie(after, m.imdbId, None, false);
    assert multiset(got.value)[m] == multiset(after)[m] > 0;
  }

  /** Worked examples: the lowest rating of each band, and the two ratings just outside the accepted range. */
  lemma RatingNameExamples()
    ensures RatingName(9) == "excellent" && RatingName(7) == "good" && RatingName(5) == "average"
    ensures RatingName(3) == "poor" && RatingName(1) == "terrible"
    ensures !ValidReviewRequest(ReviewRequest("fine", 0)) && !ValidReviewRequest(ReviewRequest("fine", 11))
  {
  }

  /** A search for "action" finds a movie tagged "Action": the search ignores letter case. */
  lemma GenreSearchIgnoresCase(m: Movie)
    requires Genres(m) == [Genre(1, "Action")]
    ensures Matches(GenreNameLike("action"), m)
  {
    assert ToLower("Action") == "action" by {
      assert LowerChar('A') == 'a';
    }
    assert ToLower("action") == "action";
    assert Contains("action", "action") by {
      assert "action" <= "action";
    }
    assert ContainsFold(Genres(m)[0].genreName, "action");
  }
}

=== FILE: connection.dfy ===
/**
 Start-up of the store connection: the required environment settings and
 the TLS parameters appended to the connection string.
 */
module Connection {
  import opened Wrappers
  import opened Text

  /** The process environment; os.Getenv answers "" for an unset variable. */
  type Env = map<string, string>

  function Getenv(env: Env, key: string): string {
    if key in env then env[key] else ""
  }

  const SslOn := "ssl=true"
  const TlsOn := "tls=true"
  /** Appended when the connection string already has a query part. */
  const AndTls := "&" + SslOn + "&tlsInsecure=false"
  /** Appended when it has none. */
  const QueryTls := "?" + SslOn + "&tlsInsecure=false"

  /** What start-up ends in: a fatal log line that stops the process, or a value. */
  datatype Startup<T> = Fatal(message: string) | Ready(value: T)

  /**
   The connection string with TLS switched on: unchanged if it already says
   ssl=true or tls=true, otherwise extended by a query parameter list.
   */
  function NormaliseUri(uri: string): (r: string)
    ensures uri <= r
    ensures r == uri <==> Contains(uri, SslOn) || Contains(uri, TlsOn)
    ensures r != uri && Contains(uri, "?") ==> r[|uri|..] == AndTls
    ensures r != uri && !Contains(uri, "?") ==> r[|uri|..] == QueryTls
  {
    if !Contains(uri, SslOn) && !Contains(uri, TlsOn) then
      if Contains(uri, "?") then uri + AndTls else uri + QueryTls
    else uri
  }

  /** Whatever the input, the normalised string asks for TLS. */
  lemma NormalisedAsksForTls(uri: string)
    ensures Contains(NormaliseUri(uri), SslOn) || Contains(NormaliseUri(uri), TlsOn)
  {
    var r := NormaliseUri(uri);
    if r != uri {
      var suffix := r[|uri|..];
      assert r == uri + suffix;
      assert suffix == AndTls || suffix == QueryTls;
      assert suffix[1..1 + |SslOn|] == SslOn;
      ContainsAt(suffix, SslOn, 1);
      ContainsAfterPrefix(uri, suffix, SslOn);
    }
  }

  /** Normalising twice is normalising once. */
  lemma NormaliseIdempotent(uri: string)
    ensures NormaliseUri(NormaliseUri(uri)) == NormaliseUri(uri)
  {
    NormalisedAsksForTls(uri);
  }

  const MissingUri := "MONGODB_URI environment variable not found"
  const MissingDatabase := "DATABASE_NAME environment variable not found"
  const NoClient := "MongoDB client is not initialized"

  /**
   dbInstance: read MONGODB_URI, normalise it, connect, ping. The outcomes
   of connect and ping are inputs; an empty setting stops start-up before
   either is attempted, so neither input can matter then.
   */
  function DbInstance(env: Env, connectError: Option<string>, pingError: Option<string>): (r: Startup<string>)
    ensures Getenv(env, "MONGODB_URI") == "" ==> r == Fatal(MissingUri)
    ensures r.Ready? <==> Getenv(env, "MONGODB_URI") != "" && connectError.None? && pingError.None?
    ensures r.Ready? ==> Getenv(env, "MONGODB_URI") <= r.value && (Contains(r.value, SslOn) || Contains(r.value, TlsOn))
    ensures r.Ready? ==> r.value == NormaliseUri(Getenv(env, "MONGODB_URI"))
  {
    var uri := Getenv(env, "MONGODB_URI");
    if uri == "" then Fatal(MissingUri)
    else
      var normalised := NormaliseUri(uri);
      NormalisedAsksForTls(uri);
      if connectError.Some? then Fatal("Failed to connect to MongoDB:" + connectError.value)
      else if pingError.Some? then Fatal("Failed to ping MongoDB:" + pingError.value)
      else Ready(normalised)
  }

  /** A collection handle: the database it lives in and its name. */
  datatype Collection = Collection(database: string, name: string)

  /** A collection opens exactly when both settings are present and the client connected and answered the ping. */
  lemma CollectionNeedsBothSettings(env: Env, connectError: Option<string>, pingError: Option<string>, name: string)
    ensures OpenCollection(env, DbInstance(env, connectError, pingError), name).Ready? <==>
              && Getenv(env, "MONGODB_URI") != "" && Getenv(env, "DATABASE_NAME") != ""
              && connectError.None? && pingError.None?
  {
  }

  /**
   OpenCollection: DATABASE_NAME is checked first, then that the client was
   initialised.
   */
  function OpenCollection(env: Env, client: Startup<string>, name: string): (r: Startup<Collection>)
    ensures Getenv(env, "DATABASE_NAME") == "" ==> r == Fatal(MissingDatabase)
    ensures r.Ready? <==> Getenv(env, "DATABASE_NAME") != "" && client.Ready?
    ensures r.Ready? ==> r.value.database == Getenv(env, "DATABASE_NAME") != "" && r.value.name == name
  {
    var database := Getenv(env, "DATABASE_NAME");
    if database == "" then Fatal(MissingDatabase)
    else if client.Fatal? then Fatal(NoClient)
    else Ready(Collection(database, name))
  }
}

=== FILE: http.dfy ===
/**
 HTTP outcomes of the handlers, and the race every data-access handler runs
 between its worker and a 10-second timer.
 */
module Http {
  import opened Wrappers
  import opened Models

  const StatusOK := 200
  const StatusCreated := 201
  const StatusBadRequest := 400
  const StatusUnauthorized := 401
  const StatusNotFound := 404
  const StatusRequestTimeout := 408
  const StatusConflict := 409
  const StatusInternalServerError := 500

  /** The error text of a handler whose worker lost the race against the timer. */
  const RequestTimeout := "request timeout"

  /**
   A response: a success body, an error message, or a validation failure
   with the constraints that failed.
   */
  datatype Reply<T> =
    | Ok(status: int, value: T)
    | Err(status: int, message: string)
    | Rejected(status: int, message: string, details: seq<Violation>)

  /** The store after a request, with the response sent. */
  datatype Step<S, T> = Step(store: S, reply: Reply<T>)

  /** What a worker leaves behind: the store after its calls and the value or error it sends. */
  datatype Run<S, T> = Run(store: S, outcome: Result<T, string>)

  /**
   The select over the success channel, the error channel and the timer.
   `late` says the worker did not finish within the 10 seconds; the worker
   is not cancelled, so its store effects stand whoever wins.
   */
  function Race<T>(outcome: Result<T, string>, late: bool, success: int): (r: Reply<T>)
    ensures late <==> r.Err? && r.status == StatusRequestTimeout
    ensures late ==> r.message == RequestTimeout
    ensures !late ==> (r.Ok? <==> outcome.Success?)
    ensures r.Ok? ==> r.status == success && r.value == outcome.value
    ensures !late && outcome.Failure? ==> r == Err(StatusInternalServerError, outcome.error)
  {
    if late then Err(StatusRequestTimeout, RequestTimeout)
    else match outcome
      case Success(v) => Ok(success, v)
      case Failure(e) => Err(StatusInternalServerError, e)
  }
}

=== FILE: models.dfy ===
/**
 The documents of the two collections, "Movie" and "User", and the field
 constraints the struct validator enforces on a movie.
 */
module Models {
  import opened Wrappers

  /** A genre tag, embedded by value in movies and in a user's favourites. */
  datatype Genre = Genre(genreId: int, genreName: string)

  /** An admin-assigned rating and its descriptive name. */
  datatype Ranking = Ranking(rankingValue: int, rankingName: string)

  /**
   A movie document. `genre` is None for a nil slice (absent or null in the
   JSON), which the validator tells apart from an empty list; `adminReview`
   and `ranking` are the optional pointer fields. The store-assigned `_id`
   is not modelled.
   */
  datatype Movie = Movie(
    imdbId: string,
    title: string,
    posterPath: string,
    youTubeId: string,
    genre: Option<seq<Genre>>,
    adminReview: Option<string>,
    ranking: Option<Ranking>)

  /** A user document, with the fields the user controller reads and writes. */
  datatype User = User(
    userId: string,
    firstName: string,
    lastName: string,
    email: string,
    password: string,
    role: string,
    favouriteGenres: seq<Genre>,
    token: string,
    refreshToken: string,
    createdAt: int,
    updatedAt: int)

  /** The genre list as a query sees it: a nil list holds no genres. */
  function Genres(m: Movie): seq<Genre> {
    if m.genre.Some? then m.genre.value else []
  }

  /** The ranking value of a ranked movie. */
  function RankingValue(m: Movie): int
    requires m.ranking.Some?
  {
    m.ranking.value.rankingValue
  }

  // ---------------------------------------------------------------------
  // Validation. `required` on a string means non-empty, on an int non-zero,
  // on a slice non-nil; `min`/`max` on a string bound its length in runes
  // (one `char` here); `dive` validates every element; an untagged nil
  // pointer is skipped and a present one is validated as a struct.
  // ---------------------------------------------------------------------

  predicate ValidGenre(g: Genre) {
    g.genreId != 0 && 2 <= |g.genreName| <= 100
  }

  predicate ValidRanking(r: Ranking) {
    r.rankingValue != 0 && r.rankingName != ""
  }

  /**
   The movie constraints. `isUrl` is the validator's `url` check, left
   abstract.
   */
  predicate ValidMovie(m: Movie, isUrl: string -> bool) {
    && m.imdbId != ""
    && 2 <= |m.title| <= 500
    && m.posterPath != "" && isUrl(m.posterPath)
    && m.youTubeId != ""
    && m.genre.Some?
    && (forall i :: 0 <= i < |m.genre.value| ==> ValidGenre(m.genre.value[i]))
    && (m.ranking.Some? ==> ValidRanking(m.ranking.value))
  }

  /** The field a validation error names. */
  datatype Field =
    | ImdbIdField
    | TitleField
    | PosterPathField
    | YouTubeIdField
    | GenreField
    | GenreIdField(index: nat)
    | GenreNameField(index: nat)
    | RankingValueField
    | RankingNameField
    | AdminReviewField
    | RatingField

  /** One failed constraint: the field and the tag that failed on it. */
  datatype Violation = Violation(field: Field, tag: string)

  /**
   The first failing tag of a string field tagged `required,min=lo,max=hi`;
   the validator stops at the first failing tag of each field.
   */
  function StringViolation(f: Field, s: string, lo: nat, hi: nat): (r: seq<Violation>)
    ensures r == [] <==> s != "" && lo <= |s| <= hi
    ensures |r| <= 1
  {
    if s == "" then [Violation(f, "required")]
    else if |s| < lo then [Violation(f, "min")]
    else if |s| > hi then [Violation(f, "max")]
    else []
  }

  /** The violations of one genre at position `index` of the list. */
  function GenreViolations(g: Genre, index: nat): (r: seq<Violation>)
    ensures r == [] <==> ValidGenre(g)
  {
    (if g.genreId == 0 then [Violation(GenreIdField(index), "required")] else [])
    + StringViolation(GenreNameField(index), g.genreName, 2, 100)
  }

  /** The violations of the genres gs, the first of which sits at position `from`. */
  function GenreListViolations(gs: seq<Genre>, from: nat): (r: seq<Violation>)
    ensures r == [] <==> forall i :: 0 <= i < |gs| ==> ValidGenre(gs[i])
    ensures forall v :: v in r ==> v.field.GenreIdField? || v.field.GenreNameField?
    decreases |gs|
  {
    if gs == [] then []
    else GenreViolations(gs[0], from) + GenreListViolations(gs[1..], from + 1)
  }

  /** Every constraint a movie breaks, in field order, as the validator reports them. */
  function MovieViolations(m: Movie, isUrl: string -> bool): (r: seq<Violation>)
    ensures r == [] <==> ValidMovie(m, isUrl)
    ensures m.imdbId == "" ==> Violation(ImdbIdField, "required") in r
    ensures m.youTubeId == "" ==> Violation(YouTubeIdField, "required") in r
    ensures m.genre.None? ==> Violation(GenreField, "required") in r
    ensures m.title != "" && |m.title| < 2 ==> Violation(TitleField, "min") in r
    ensures |m.title| > 500 ==> Violation(TitleField, "max") in r
    ensures m.posterPath != "" && !isUrl(m.posterPath) ==> Violation(PosterPathField, "url") in r
  {
    (if m.imdbId == "" then [Violation(ImdbIdField, "required")] else [])
    + StringViolation(TitleField, m.title, 2, 500)
    + (if m.posterPath == "" then [Violation(PosterPathField, "required")]
       else if !isUrl(m.posterPath) then [Violation(PosterPathField, "url")]
       else [])
    + (if m.youTubeId == "" then [Violation(YouTubeIdField, "required")] else [])
    + (if m.genre.None? then [Violation(GenreField, "required")]
       else GenreListViolations(m.genre.value, 0))
    + (if m.ranking.None? then []
       else (if m.ranking.value.rankingValue == 0 then [Violation(RankingValueField, "required")] else [])
            + (if m.ranking.value.rankingName == "" then [Violation(RankingNameField, "required")] else []))
  }

  /** Neither the admin review nor the ranking is needed for a movie to be valid. */
  lemma OptionalFieldsNeverInvalidate(m: Movie, isUrl: string -> bool)
    requires ValidMovie(m, isUrl)
    ensures ValidMovie(m.(adminReview := None, ranking := None), isUrl)
    ensures forall text :: ValidMovie(m.(adminReview := Some(text)), isUrl)
  {
  }
}

=== FILE: movie_controller.dfy ===
/**
 The movie handlers: the rating-name table, the admin review update, movie
 creation and the read queries (by imdb id, top rated, by genre,
 recommendations). Each handler receives the collection as a sequence and
 returns the response it sends; store failures and the worker missing the
 10-second deadline are inputs.
 */
module MovieController {
  import opened Wrappers
  import opened Text
  import opened Models
  import opened Queries
  import opened Http

  // ---------------------------------------------------------------------
  // Rating names
  // ---------------------------------------------------------------------

  /** The descriptive name of a rating, by the fixed threshold table. */
  function RatingName(rating: int): (name: string)
    ensures name == "excellent" <==> rating >= 9
    ensures name == "good" <==> 7 <= rating < 9
    ensures name == "average" <==> 5 <= rating < 7
    ensures name == "poor" <==> 3 <= rating < 5
    ensures name == "terrible" <==> rating < 3
  {
    if rating >= 9 then "excellent"
    else if rating >= 7 then "good"
    else if rating >= 5 then "average"
    else if rating >= 3 then "poor"
    else "terrible"
  }

  /** The position of a name on the scale, from "terrible" (0) up to "excellent" (4). */
  function Tier(name: string): nat {
    if name == "excellent" then 4
    else if name == "good" then 3
    else if name == "average" then 2
    else if name == "poor" then 1
    else 0
  }

  /** A higher rating never gets a lower name, and every rating gets one of the five names. */
  lemma RatingNameMonotone(r1: int, r2: int)
    requires r1 <= r2
    ensures Tier(RatingName(r1)) <= Tier(RatingName(r2))
    ensures RatingName(r1) in ["excellent", "good", "average", "poor", "terrible"]
  {
  }

  // ---------------------------------------------------------------------
  // Admin review update
  // ---------------------------------------------------------------------

  /** The body of a review update. */
  datatype ReviewRequest = ReviewRequest(adminReview: string, rating: int)

  /** The body of a successful review update. */
  datatype ReviewResponse = ReviewResponse(message: string, adminReview: string, rating: int, rankingName: string)

  /** `admin_review` is required; `rating` is required (non-zero) and within [1,10]. */
  predicate ValidReviewRequest(q: ReviewRequest) {
    q.adminReview != "" && 1 <= q.rating <= 10
  }

  /** The constraints a review request breaks, in field order. */
  function ReviewViolations(q: ReviewRequest): (r: seq<Violation>)
    ensures r == [] <==> ValidReviewRequest(q)
    ensures q.rating == 0 ==> Violation(RatingField, "required") in r
    ensures q.rating < 0 ==> Violation(RatingField, "min") in r
    ensures q.rating > 10 ==> Violation(RatingField, "max") in r
  {
    (if q.adminReview == "" then [Violation(AdminReviewField, "required")] else [])
    + (if q.rating == 0 then [Violation(RatingField, "required")]
       else if q.rating < 1 then [Violation(RatingField, "min")]
       else if q.rating > 10 then [Violation(RatingField, "max")]
       else [])
  }

  /** The movie after the $set of a review update. */
  function WithReview(m: Movie, q: ReviewRequest): Movie {
    m.(adminReview := Some(q.adminReview), ranking := Some(Ranking(q.rating, RatingName(q.rating))))
  }

  function HasImdbId(id: string): Movie -> bool {
    (m: Movie) => m.imdbId == id
  }

  /**
   PUT /movies/:imdb_id/review. Runs without a worker; `updateError` says the
   UpdateOne call failed.
   */
  function AdminReviewUpdate(store: seq<Movie>, imdbId: string, body: Option<ReviewRequest>, updateError: bool)
    : (r: Step<seq<Movie>, ReviewResponse>)
    ensures imdbId == "" ==> r == Step(store, Err(StatusBadRequest, "Movie ID required"))
    ensures imdbId != "" && body.None? ==> r == Step(store, Err(StatusBadRequest, "Invalid request data"))
    ensures r.reply.status == StatusBadRequest <==> imdbId == "" || body.None? || !ValidReviewRequest(body.value)
    ensures r.reply.Rejected? ==> body.Some? && r.reply.details == ReviewViolations(body.value) != []
    ensures imdbId != "" && body.Some? && !ValidReviewRequest(body.value) ==>
              r == Step(store, Rejected(StatusBadRequest, "Validation failed", ReviewViolations(body.value)))
    ensures r.reply.status == StatusInternalServerError ==> r.reply == Err(StatusInternalServerError, "Failed to update movie")
    ensures r.reply.status == StatusNotFound ==> r.reply == Err(StatusNotFound, "Movie not found")
    ensures r.reply.status != StatusOK ==> r.store == store
    ensures r.reply.status == StatusInternalServerError <==>
              imdbId != "" && body.Some? && ValidReviewRequest(body.value) && updateError
    ensures r.reply.status == StatusNotFound <==>
              && imdbId != "" && body.Some? && ValidReviewRequest(body.value) && !updateError
              && forall j :: 0 <= j < |store| ==> store[j].imdbId != imdbId
    ensures r.reply.Ok? <==>
              && imdbId != "" && body.Some? && ValidReviewRequest(body.value) && !updateError
              && exists j :: 0 <= j < |store| && store[j].imdbId == imdbId
    ensures r.reply.Ok? ==> r.reply.status == StatusOK
    ensures r.reply.Ok? ==> r.reply.value == ReviewResponse(
              "Review updated successfully", body.value.adminReview, body.value.rating, RatingName(body.value.rating))
    ensures forall i ::
              (&& 0 <= i < |store| && store[i].imdbId == imdbId && r.reply.Ok?
               && forall j :: 0 <= j < i ==> store[j].imdbId != imdbId) ==>
              && |r.store| == |store|
              && (forall j :: 0 <= j < |store| && j != i ==> r.store[j] == store[j])
              && r.store[i].adminReview == Some(body.value.adminReview)
              && r.store[i].ranking == Some(Ranking(body.value.rating, RatingName(body.value.rating)))
              && r.store[i].(adminReview := store[i].adminReview, ranking := store[i].ranking) == store[i]
  {
    if imdbId == "" then Step(store, Err(StatusBadRequest, "Movie ID required"))
    else if body.None? then Step(store, Err(StatusBadRequest, "Invalid request data"))
    else if !ValidReviewRequest(body.value) then
      Step(store, Rejected(StatusBadRequest, "Validation failed", ReviewViolations(body.value)))
    else if updateError then Step(store, Err(StatusInternalServerError, "Failed to update movie"))
    else match FirstIndex(store, HasImdbId(imdbId))
      case None => Step(store, Err(StatusNotFound, "Movie not found"))
      case Some(i) =>
        var q := body.value;
        Step(store[i := WithReview(store[i], q)],
             Ok(StatusOK, ReviewResponse("Review updated successfully", q.adminReview, q.rating, RatingName(q.rating))))
  }

  // ---------------------------------------------------------------------
  // Movie creation
  // ---------------------------------------------------------------------

  const MovieCreated := "Movie created successfully"

  /**
   POST /movies. `body` is None when the JSON does not bind; the worker's
   InsertOne fails with `insertError`; `late` says it missed the deadline.
   */
  function MakeMovies(store: seq<Movie>, body: Option<Movie>, isUrl: string -> bool,
                      insertError: Option<string>, late: bool): (r: Step<seq<Movie>, string>)
    ensures body.None? ==> r == Step(store, Err(StatusBadRequest, "Invalid JSON"))
    ensures body.Some? && !ValidMovie(body.value, isUrl) ==>
              r == Step(store, Rejected(StatusBadRequest, "Validation failed", MovieViolations(body.value, isUrl)))
    ensures r.store == store || (body.Some? && ValidMovie(body.value, isUrl) && r.store == store + [body.value])
    ensures r.store != store <==> body.Some? && ValidMovie(body.value, isUrl) && insertError.None?
    ensures r.reply.Ok? <==> r.store != store && !late
    ensures r.reply.Ok? ==> r.reply == Ok(StatusCreated, MovieCreated)
    ensures body.Some? && ValidMovie(body.value, isUrl) && late ==>
              r.reply == Err(StatusRequestTimeout, RequestTimeout)
    ensures body.Some? && ValidMovie(body.value, isUrl) && !late && insertError.Some? ==>
              r == Step(store, Err(StatusInternalServerError, insertError.value))
  {
    if body.None? then Step(store, Err(StatusBadRequest, "Invalid JSON"))
    else
      var violations := MovieViolations(body.value, isUrl);
      if violations != [] then Step(store, Rejected(StatusBadRequest, "Validation failed", violations))
      else
        var run := if insertError.Some? then Run(store, Failure(insertError.value))
                   else Run(store + [body.value], Success(MovieCreated));
        assert insertError.None? ==> run.store != store by {
          if insertError.None? { assert |run.store| == |store| + 1; }
        }
        Step(run.store, Race(run.outcome, late, StatusCreated))
  }

  // ---------------------------------------------------------------------
  // Read queries
  // ---------------------------------------------------------------------

  /** The failure of the find call, if any, or the documents it returns. */
  function Fetch(found: seq<Movie>, findError: Option<string>): Result<seq<Movie>, string> {
    if findError.Some? then Failure(findError.value) else Success(found)
  }

  /** GET /movie/:imdb_id: every movie with that id, as a list that may be empty. */
  function GetMovie(store: seq<Movie>, imdbId: string, findError: Option<string>, late: bool)
    : (r: Reply<seq<Movie>>)
    ensures r.Ok? <==> findError.None? && !late
    ensures r.Ok? ==> r.status == StatusOK
    ensures r.Ok? ==> forall m :: multiset(r.value)[m] == if m.imdbId == imdbId then multiset(store)[m] else 0
    ensures late ==> r == Err(StatusRequestTimeout, RequestTimeout)
    ensures !late && findError.Some? ==> r == Err(StatusInternalServerError, findError.value)
  {
    Race(Fetch(Where(store, ImdbIdIs(imdbId)), findError), late, StatusOK)
  }

  const TopRatedMinimum := 7
  const TopRatedLimit := 20

  datatype TopRated = TopRated(topRatedMovies: seq<Movie>, totalFound: int, minimumRating: int)

  /**
   What a top-rated answer `ms` must be: at most 20 store movies, never
   more copies than the store holds, each ranked 7 or more, highest first,
   and a qualifying copy left out only when 20 movies all ranked at least
   as high were returned.
   */
  ghost predicate TopRatedSelection(store: seq<Movie>, ms: seq<Movie>) {
    && |ms| <= TopRatedLimit
    && multiset(ms) <= multiset(store)
    && (forall i :: 0 <= i < |ms| ==> ms[i] in store && ms[i].ranking.Some? && RankingValue(ms[i]) >= TopRatedMinimum)
    && (forall i, j :: 0 <= i < j < |ms| ==> RankingValue(ms[i]) >= RankingValue(ms[j]))
    && (forall m {:trigger Matches(RankingAtLeast(TopRatedMinimum), m)} :: Matches(RankingAtLeast(TopRatedMinimum), m) && multiset(ms)[m] < multiset(store)[m] ==>
          |ms| == TopRatedLimit && forall i :: 0 <= i < |ms| ==> RankingValue(ms[i]) >= RankingValue(m))
  }

  /** The top-rated query of the store meets TopRatedSelection. */
  lemma TopRatedQuery(store: seq<Movie>, ms: seq<Movie>)
    requires |ms| <= TopRatedLimit
    requires multiset(ms) <= multiset(store)
    requires forall i :: 0 <= i < |ms| ==> Matches(RankingAtLeast(TopRatedMinimum), ms[i]) && ms[i] in store
    requires SortedDesc(ms)
    requires forall m {:trigger Matches(RankingAtLeast(TopRatedMinimum), m)} ::
               Matches(RankingAtLeast(TopRatedMinimum), m) && multiset(ms)[m] < multiset(store)[m] ==>
               |ms| == TopRatedLimit && forall x :: x in ms ==> Outranks(x, m)
    ensures TopRatedSelection(store, ms)
  {
    var f := RankingAtLeast(TopRatedMinimum);
    forall i | 0 <= i < |ms| ensures ms[i].ranking.Some? {
      assert Matches(f, ms[i]);
    }
    SortedByValue(ms);
    forall m | Matches(f, m) && multiset(ms)[m] < multiset(store)[m]
      ensures |ms| == TopRatedLimit && forall i :: 0 <= i < |ms| ==> RankingValue(ms[i]) >= RankingValue(m)
    {
      OutrankedByValue(ms, m);
    }
  }

  /** GET /movies/top-rated: the 20 best-ranked movies rated 7 or more, highest first. */
  function GetTopRatedMovies(store: seq<Movie>, findError: Option<string>, late: bool): (r: Reply<TopRated>)
    ensures r.Ok? <==> findError.None? && !late
    ensures r.Ok? ==> r.status == StatusOK
    ensures r.Ok? ==> var ms := r.value.topRatedMovies;
              && r.value.totalFound == |ms|
              && r.value.minimumRating == TopRatedMinimum
              && TopRatedSelection(store, ms)
    ensures late ==> r == Err(StatusRequestTimeout, RequestTimeout)
    ensures !late && findError.Some? ==> r == Err(StatusInternalServerError, findError.value)
  {
    var ms := FindTopRanked(store, RankingAtLeast(TopRatedMinimum), TopRatedLimit);
    TopRatedQuery(store, ms);
    match Fetch(ms, findError)
    case Failure(e) => Race(Failure(e), late, StatusOK)
    case Success(found) => Race(Success(TopRated(found, |found|, TopRatedMinimum)), late, StatusOK)
  }

  const GenreLimit := 20

  datatype ByGenre = ByGenre(movies: seq<Movie>, genre: string, totalFound: int)

  /** Whether some genre of m has a name containing `genre`, ignoring case: the `$regex` with option "i". */
  predicate GenreNameContains(m: Movie, genre: string) {
    exists k :: 0 <= k < |Genres(m)| && ContainsFold(Genres(m)[k].genreName, genre)
  }

  /**
   What a by-genre answer `ms` must be: at most 20 store movies, never more
   copies than the store holds, each with a genre name containing the
   parameter, and a matching copy left out only when 20 were returned.
   */
  ghost predicate GenreSelection(store: seq<Movie>, genre: string, ms: seq<Movie>) {
    && |ms| <= GenreLimit
    && multiset(ms) <= multiset(store)
    && (forall i :: 0 <= i < |ms| ==> ms[i] in store && GenreNameContains(ms[i], genre))
    && (forall m {:trigger GenreNameContains(m, genre)} :: GenreNameContains(m, genre) && multiset(ms)[m] < multiset(store)[m] ==> |ms| == GenreLimit)
  }

  /** The by-genre query of the store meets GenreSelection. */
  lemma GenreQuery(store: seq<Movie>, genre: string, ms: seq<Movie>)
    requires |ms| <= GenreLimit
    requires multiset(ms) <= multiset(store)
    requires forall i :: 0 <= i < |ms| ==> Matches(GenreNameLike(genre), ms[i]) && ms[i] in store
    requires forall m {:trigger Matches(GenreNameLike(genre), m)} ::
               Matches(GenreNameLike(genre), m) && multiset(ms)[m] < multiset(store)[m] ==> |ms| == GenreLimit
    ensures GenreSelection(store, genre, ms)
  {
    var f := GenreNameLike(genre);
    forall i | 0 <= i < |ms| ensures ms[i] in store && GenreNameContains(ms[i], genre) {
      assert Matches(f, ms[i]);
    }
    forall m | GenreNameContains(m, genre) && multiset(ms)[m] < multiset(store)[m] ensures |ms| == GenreLimit {
      assert Matches(f, m);
    }
  }

  /**
   GET /movies/genre/:genre: up to 20 movies, in collection order, with a
   genre name containing the parameter, ignoring case.
   */
  function GetMoviesByGenre(store: seq<Movie>, genre: string, findError: Option<string>, late: bool)
    : (r: Reply<ByGenre>)
    ensures genre == "" ==> r == Err(StatusBadRequest, "Genre parameter required")
    ensures r.Ok? <==> genre != "" && findError.None? && !late
    ensures r.Ok? ==> var ms := r.value.movies;
              && r.status == StatusOK
              && r.value.genre == genre
              && r.value.totalFound == |ms|
              && GenreSelection(store, genre, ms)
    ensures genre != "" && late ==> r == Err(StatusRequestTimeout, RequestTimeout)
    ensures genre != "" && !late && findError.Some? ==> r == Err(StatusInternalServerError, findError.value)
  {
    if genre == "" then Err(StatusBadRequest, "Genre parameter required")
    else
      var ms := FindLimited(store, GenreNameLike(genre), GenreLimit);
      GenreQuery(store, genre, ms);
      match Fetch(ms, findError)
      case Failure(e) => Race(Failure(e), late, StatusOK)
      case Success(found) => Race(Success(ByGenre(found, genre, |found|)), late, StatusOK)
  }

  // ---------------------------------------------------------------------
  // Recommendations
  // ---------------------------------------------------------------------

  /** The driver's error text when FindOne matches no document. */
  const NoDocuments := "mongo: no documents in result"

  function HasUserId(id: string): User -> bool {
    (u: User) => u.userId == id
  }

  /** getUserById: the first user with that id, or the lookup's error. */
  function GetUserById(users: seq<User>, userId: string, lookupError: Option<string>): (r: Result<User, string>)
    ensures lookupError.Some? ==> r == Failure(lookupError.value)
    ensures r.Success? ==> r.value in users && r.value.userId == userId
    ensures r.Success? ==>
              exists i :: 0 <= i < |users| && users[i] == r.value && forall j :: 0 <= j < i ==> users[j].userId != userId
    ensures lookupError.None? && (exists i :: 0 <= i < |users| && users[i].userId == userId) ==> r.Success?
    ensures lookupError.None? && r.Failure? ==> r.error == NoDocuments
  {
    if lookupError.Some? then Failure(lookupError.value)
    else match FirstIndex(users, HasUserId(userId))
      case None => Failure(NoDocuments)
      case Some(i) => Success(users[i])
  }

  /** The names of a list of genres, in list order. */
  function GenreNames(gs: seq<Genre>): (names: seq<string>)
    ensures |names| == |gs|
    ensures forall i :: 0 <= i < |gs| ==> names[i] == gs[i].genreName
  {
    seq(|gs|, i requires 0 <= i < |gs| => gs[i].genreName)
  }

  const RecommendMinimum := 6
  const RecommendLimit := 10

  datatype Recommendation =
    | Recommended(recommendedMovies: seq<Movie>, basedOnGenres: seq<string>, totalFound: int)
    | NoFavourites(message: string, movies: seq<Movie>, userGenres: seq<string>)

  /** A movie a recommendation may return: ranked 6 or more, with a genre named exactly as one of `names`. */
  predicate Recommendable(names: seq<string>, m: Movie) {
    && m.ranking.Some? && RankingValue(m) >= RecommendMinimum
    && exists k :: 0 <= k < |Genres(m)| && Genres(m)[k].genreName in names
  }

  /** The filter document of a recommendation: `$in` on the genre names and `$gte` on the ranking. */
  function RecommendFilter(names: seq<string>): Filter {
    Both(GenreNameIn(names), RankingAtLeast(RecommendMinimum))
  }

  /**
   The catalogue query of a recommendation: the 10 best-ranked movies rated
   6 or more that carry one of the given genre names exactly. A qualifying
   copy is left out only when 10 movies, all ranked at least as high, were
   returned.
   */
  function RecommendFrom(store: seq<Movie>, names: seq<string>): (ms: seq<Movie>)
    ensures RecommendSelection(store, names, ms)
  {
    var ms := FindTopRanked(store, RecommendFilter(names), RecommendLimit);
    RecommendQuery(store, names, ms);
    ms
  }

  /**
   What a recommendation answer `ms` must be: at most 10 store movies,
   never more copies than the store holds, each recommendable, highest
   ranked first, and a recommendable copy left out only when 10 movies all
   ranked at least as high were returned.
   */
  ghost predicate RecommendSelection(store: seq<Movie>, names: seq<string>, ms: seq<Movie>) {
    && |ms| <= RecommendLimit
    && multiset(ms) <= multiset(store)
    && (forall i :: 0 <= i < |ms| ==> ms[i] in store && ms[i].ranking.Some? && Recommendable(names, ms[i]))
    && (forall i, j :: 0 <= i < j < |ms| ==> RankingValue(ms[i]) >= RankingValue(ms[j]))
    && (forall m {:trigger Recommendable(names, m)} :: Recommendable(names, m) && multiset(ms)[m] < multiset(store)[m] ==>
          |ms| == RecommendLimit && forall i :: 0 <= i < |ms| ==> RankingValue(ms[i]) >= RankingValue(m))
  }

  /**
   A selection with the properties FindTopRanked guarantees for the
   recommendation filter meets RecommendSelection.
   */
  lemma RecommendQuery(store: seq<Movie>, names: seq<string>, ms: seq<Movie>)
    requires |ms| <= RecommendLimit
    requires multiset(ms) <= multiset(store)
    requires forall i :: 0 <= i < |ms| ==> Matches(RecommendFilter(names), ms[i]) && ms[i] in store
    requires SortedDesc(ms)
    requires forall m {:trigger Matches(RecommendFilter(names), m)} ::
               Matches(RecommendFilter(names), m) && multiset(ms)[m] < multiset(store)[m] ==>
               |ms| == RecommendLimit && forall x :: x in ms ==> Outranks(x, m)
    ensures RecommendSelection(store, names, ms)
  {
    var f := RecommendFilter(names);
    forall i | 0 <= i < |ms| ensures ms[i] in store && ms[i].ranking.Some? && Recommendable(names, ms[i]) {
      assert Matches(f, ms[i]);
      assert Matches(GenreNameIn(names), ms[i]) && Matches(RankingAtLeast(RecommendMinimum), ms[i]);
    }
    SortedByValue(ms);
    forall m | Recommendable(names, m) && multiset(ms)[m] < multiset(store)[m]
      ensures |ms| == RecommendLimit && forall i :: 0 <= i < |ms| ==> RankingValue(ms[i]) >= RankingValue(m)
    {
      assert Matches(f, m) by {
        assert Matches(GenreNameIn(names), m);
        assert Matches(RankingAtLeast(RecommendMinimum), m);
      }
      OutrankedByValue(ms, m);
    }
  }

  /** The recommendation filter document, read as a condition on one movie. */
  lemma RecommendFilterMeaning(names: seq<string>)
    ensures forall m :: Matches(RecommendFilter(names), m) <==> Recommendable(names, m)
  {
  }

  /**
   GET /movies/recommended/:user_id: recommendations from the user's
   favourite genre names, or an empty-state reply when there are none.
   */
  function GetRecommendedMovies(users: seq<User>, store: seq<Movie>, userId: string,
                                lookupError: Option<string>, findError: Option<string>, late: bool)
    : (r: Reply<Recommendation>)
    ensures userId == "" ==> r == Err(StatusBadRequest, "User ID required")
    ensures userId != "" && GetUserById(users, userId, lookupError).Failure? ==>
              r == Err(StatusNotFound, "User not found")
    ensures r.Ok? && r.value.NoFavourites? <==>
              userId != "" && GetUserById(users, userId, lookupError).Success? &&
              GetUserById(users, userId, lookupError).value.favouriteGenres == []
    ensures r.Ok? && r.value.NoFavourites? ==>
              r == Ok(StatusOK, NoFavourites("No favorite genres set for user", [], []))
    ensures r.Ok? && r.value.Recommended? ==>
              && r.status == StatusOK
              && findError.None? && !late
              && r.value.basedOnGenres == GenreNames(GetUserById(users, userId, lookupError).value.favouriteGenres)
              && r.value.recommendedMovies == RecommendFrom(store, r.value.basedOnGenres)
              && r.value.totalFound == |r.value.recommendedMovies|
    ensures userId != "" && GetUserById(users, userId, lookupError).Success? &&
            GetUserById(users, userId, lookupError).value.favouriteGenres != [] ==>
              && (late ==> r == Err(StatusRequestTimeout, RequestTimeout))
              && (!late && findError.Some? ==> r == Err(StatusInternalServerError, findError.value))
              && (!late && findError.None? ==> r.Ok? && r.value.Recommended?)
  {
    if userId == "" then Err(StatusBadRequest, "User ID required")
    else match GetUserById(users, userId, lookupError)
      case Failure(_) => Err(StatusNotFound, "User not found")
      case Success(user) =>
        var names := GenreNames(user.favouriteGenres);
        if |names| == 0 then Ok(StatusOK, NoFavourites("No favorite genres set for user", [], []))
        else
          var ms := RecommendFrom(store, names);
          match Fetch(ms, findError)
          case Failure(e) => Race(Failure(e), late, StatusOK)
          case Success(found) => Race(Success(Recommended(found, names, |found|)), late, StatusOK)
  }
}

=== FILE: queries.dfy ===
/**
 The document-store queries the controllers issue, over an in-memory
 collection: a filter document, a descending sort on the ranking value and
 a result limit, as the driver's find call applies them.
 */
module Queries {
  import opened Wrappers
  import opened Text
  import opened Models

  /** The position of the first element satisfying p: how a FindOne or an UpdateOne picks its document. */
  function FirstIndex<T>(xs: seq<T>, p: T -> bool): (r: Option<nat>)
    ensures r.Some? ==> r.value < |xs| && p(xs[r.value])
    ensures r.Some? ==> forall j :: 0 <= j < r.value ==> !p(xs[j])
    ensures r.None? <==> forall j :: 0 <= j < |xs| ==> !p(xs[j])
  {
    if xs == [] then None
    else if p(xs[0]) then Some(0)
    else match FirstIndex(xs[1..], p)
      case None => None
      case Some(k) => Some(k + 1)
  }

  /** FirstIndex only sees which positions satisfy p. */
  lemma {:induction false} FirstIndexSamePattern<T>(xs: seq<T>, ys: seq<T>, p: T -> bool)
    requires |xs| == |ys|
    requires forall j :: 0 <= j < |xs| ==> p(xs[j]) == p(ys[j])
    ensures FirstIndex(xs, p) == FirstIndex(ys, p)
  {
    if xs != [] {
      FirstIndexSamePattern(xs[1..], ys[1..], p);
    }
  }

  /** A filter document on the movie collection. */
  datatype Filter =
    | ImdbIdIs(id: string)            // {"imdb_id": id}
    | RankingAtLeast(minimum: int)    // {"ranking.ranking_value": {"$gte": minimum}}
    | GenreNameLike(pattern: string)  // {"genre.genre_name": {"$regex": pattern, "$options": "i"}}
    | GenreNameIn(names: seq<string>) // {"genre.genre_name": {"$in": names}}
    | Both(left: Filter, right: Filter)

  /**
   Whether a movie matches a filter. A condition on a field of the genre
   array holds when it holds of some element; a missing ranking never
   satisfies a comparison.
   */
  predicate Matches(f: Filter, m: Movie) {
    match f
    case ImdbIdIs(id) => m.imdbId == id
    case RankingAtLeast(k) => m.ranking.Some? && m.ranking.value.rankingValue >= k
    case GenreNameLike(p) => exists i :: 0 <= i < |Genres(m)| && ContainsFold(Genres(m)[i].genreName, p)
    case GenreNameIn(names) => exists i :: 0 <= i < |Genres(m)| && Genres(m)[i].genreName in names
    case Both(l, r) => Matches(l, m) && Matches(r, m)
  }

  /** The documents of the collection that match f, in collection order. */
  function Where(xs: seq<Movie>, f: Filter): (r: seq<Movie>)
    ensures |r| <= |xs|
    ensures forall i :: 0 <= i < |r| ==> Matches(f, r[i])
    ensures forall m :: multiset(r)[m] == if Matches(f, m) then multiset(xs)[m] else 0
    ensures multiset(r) <= multiset(xs)
  {
    if xs == [] then []
    else
      assert xs == [xs[0]] + xs[1..];
      if Matches(f, xs[0]) then [xs[0]] + Where(xs[1..], f) else Where(xs[1..], f)
  }

  /** Membership in a filtered collection, read off the multiplicities. */
  lemma WhereMembers(xs: seq<Movie>, f: Filter)
    ensures forall m :: m in Where(xs, f) <==> m in xs && Matches(f, m)
  {
    var r := Where(xs, f);
    forall m ensures m in r <==> m in xs && Matches(f, m) {
      assert m in r <==> multiset(r)[m] > 0;
      assert m in xs <==> multiset(xs)[m] > 0;
    }
  }

  /**
   Order of a descending sort on ranking.ranking_value: a movie comes no
   later than b when b has no ranking (a missing field sorts as null, below
   every number) or both are ranked and a's value is at least b's.
   */
  predicate Outranks(a: Movie, b: Movie) {
    b.ranking.None? || (a.ranking.Some? && a.ranking.value.rankingValue >= b.ranking.value.rankingValue)
  }

  predicate SortedDesc(xs: seq<Movie>) {
    forall i, j :: 0 <= i < j < |xs| ==> Outranks(xs[i], xs[j])
  }

  /** Outranks is a total preorder, so a descending order on ranking value exists for every collection. */
  lemma OutranksTotalPreorder(a: Movie, b: Movie, c: Movie)
    ensures Outranks(a, a)
    ensures Outranks(a, b) || Outranks(b, a)
    ensures Outranks(a, b) && Outranks(b, c) ==> Outranks(a, c)
    ensures a.ranking.Some? && b.ranking.Some? ==>
              (Outranks(a, b) <==> a.ranking.value.rankingValue >= b.ranking.value.rankingValue)
  {
  }

  /** Puts m into a sorted sequence, before the first element it outranks. */
  function Insert(m: Movie, xs: seq<Movie>): (r: seq<Movie>)
    requires SortedDesc(xs)
    ensures SortedDesc(r)
    ensures multiset(r) == multiset(xs) + multiset{m}
    ensures forall x :: x in r <==> x == m || x in xs
  {
    if xs == [] then [m]
    else if Outranks(m, xs[0]) then [m] + xs
    else
      assert xs == [xs[0]] + xs[1..];
      var rest := Insert(m, xs[1..]);
      assert forall x :: x in rest ==> Outranks(xs[0], x);
      [xs[0]] + rest
  }

  /**
   The collection sorted by ranking value, highest first. The store's order
   among equal values is unspecified; this is one admissible order and only
   sortedness and being a permutation are relied on.
   */
  function SortDesc(xs: seq<Movie>): (r: seq<Movie>)
    ensures SortedDesc(r)
    ensures multiset(r) == multiset(xs)
    ensures |r| == |xs|
  {
    if xs == [] then []
    else
      assert xs == [xs[0]] + xs[1..];
      Insert(xs[0], SortDesc(xs[1..]))
  }

  /** The first n documents: the limit option of a find call. */
  function Limit(xs: seq<Movie>, n: nat): (r: seq<Movie>)
    ensures |r| <= n && |r| <= |xs|
    ensures |r| == n || r == xs
    ensures r <= xs
    ensures multiset(r) <= multiset(xs)
  {
    if |xs| <= n then xs
    else
      assert xs == xs[..n] + xs[n..];
      xs[..n]
  }

  /** find(filter) with a limit, in collection order. */
  function FindLimited(store: seq<Movie>, f: Filter, n: nat): (r: seq<Movie>)
    ensures |r| <= n
    ensures |r| == if |Where(store, f)| <= n then |Where(store, f)| else n
    ensures forall i :: 0 <= i < |r| ==> Matches(f, r[i]) && r[i] in store
    ensures multiset(r) <= multiset(Where(store, f)) <= multiset(store)
    ensures forall m :: m in store && Matches(f, m) && m !in r ==> |r| == n
    ensures forall m {:trigger Matches(f, m)} :: Matches(f, m) && multiset(r)[m] < multiset(store)[m] ==> |r| == n
  {
    WhereMembers(store, f);
    Limit(Where(store, f), n)
  }

  /**
   find(filter) sorted descending on the ranking value, with a limit: the n
   best-ranked matches. A match left out is outranked by every result.
   */
  function FindTopRanked(store: seq<Movie>, f: Filter, n: nat): (r: seq<Movie>)
    ensures |r| <= n
    ensures forall i :: 0 <= i < |r| ==> Matches(f, r[i]) && r[i] in store
    ensures multiset(r) <= multiset(Where(store, f))
    ensures multiset(r) <= multiset(store)
    ensures |r| == if |Where(store, f)| <= n then |Where(store, f)| else n
    ensures SortedDesc(r)
    ensures forall m {:trigger Matches(f, m)} :: Matches(f, m) && multiset(r)[m] < multiset(store)[m] ==>
              |r| == n && forall x :: x in r ==> Outranks(x, m)
  {
    WhereMembers(store, f);
    var s := SortDesc(Where(store, f));
    assert forall x :: x in s <==> x in Where(store, f) by {
      forall x ensures x in s <==> x in Where(store, f) {
        assert x in s <==> multiset(s)[x] > 0;
      }
    }
    LimitKeepsBest(s, n);
    Limit(s, n)
  }

  /**
   Cutting a sorted sequence keeps a sorted prefix that outranks what was
   cut, counting copies: whenever the prefix holds fewer copies of m than
   the sequence, every kept document outranks m.
   */
  lemma LimitKeepsBest(s: seq<Movie>, n: nat)
    requires SortedDesc(s)
    ensures SortedDesc(Limit(s, n))
    ensures forall m :: multiset(Limit(s, n))[m] < multiset(s)[m] ==>
              forall x :: x in Limit(s, n) ==> Outranks(x, m)
  {
    var r := Limit(s, n);
    if n < |s| {
      assert r == s[..n];
      forall m | multiset(r)[m] < multiset(s)[m] ensures forall x :: x in r ==> Outranks(x, m) {
        var j := CopyAfterPrefix(s, n, m);
        forall x | x in r ensures Outranks(x, m) {
          var i :| 0 <= i < |r| && r[i] == x;
          assert s[i] == x;
        }
      }
    }
  }

  /** A copy of m that the first n elements do not account for sits at or after position n. */
  lemma CopyAfterPrefix(s: seq<Movie>, n: nat, m: Movie) returns (j: nat)
    requires n <= |s|
    requires multiset(s[..n])[m] < multiset(s)[m]
    ensures n <= j < |s| && s[j] == m
  {
    assert s == s[..n] + s[n..];
    assert m in s[n..];
    var k :| 0 <= k < |s[n..]| && s[n..][k] == m;
    j := n + k;
  }

  /**
   When the filter only admits ranked movies, the order of FindTopRanked is
   the order of ranking values, and a match left out is ranked no higher
   than any result.
   */
  lemma TopRankedByValue(store: seq<Movie>, f: Filter, n: nat)
    requires forall m :: Matches(f, m) ==> m.ranking.Some?
    ensures var ms := FindTopRanked(store, f, n);
      && (forall i :: 0 <= i < |ms| ==> ms[i].ranking.Some?)
      && (forall i, j :: 0 <= i < j < |ms| ==> RankingValue(ms[i]) >= RankingValue(ms[j]))
      && (forall m {:trigger Matches(f, m)} :: Matches(f, m) && multiset(ms)[m] < multiset(store)[m] ==>
            |ms| == n && forall i :: 0 <= i < |ms| ==> RankingValue(ms[i]) >= RankingValue(m))
  {
    var ms := FindTopRanked(store, f, n);
    forall i | 0 <= i < |ms| ensures ms[i].ranking.Some? {
      assert Matches(f, ms[i]);
    }
    SortedByValue(ms);
    forall m | Matches(f, m) && multiset(ms)[m] < multiset(store)[m]
      ensures |ms| == n && forall i :: 0 <= i < |ms| ==> RankingValue(ms[i]) >= RankingValue(m)
    {
      OutrankedByValue(ms, m);
    }
  }

  /** Among ranked movies, descending order is non-increasing ranking value. */
  lemma SortedByValue(ms: seq<Movie>)
    requires SortedDesc(ms)
    requires forall i :: 0 <= i < |ms| ==> ms[i].ranking.Some?
    ensures forall i, j :: 0 <= i < j < |ms| ==> RankingValue(ms[i]) >= RankingValue(ms[j])
  {
    forall i, j | 0 <= i < j < |ms| ensures RankingValue(ms[i]) >= RankingValue(ms[j]) {
      assert Outranks(ms[i], ms[j]);
    }
  }

  /** A ranked movie outranked by every element of a ranked sequence is valued no higher than any of them. */
  lemma OutrankedByValue(ms: seq<Movie>, m: Movie)
    requires m.ranking.Some?
    requires forall i :: 0 <= i < |ms| ==> ms[i].ranking.Some?
    requires forall x :: x in ms ==> Outranks(x, m)
    ensures forall i :: 0 <= i < |ms| ==> RankingValue(ms[i]) >= RankingValue(m)
  {
    forall i | 0 <= i < |ms| ensures RankingValue(ms[i]) >= RankingValue(m) {
      assert ms[i] in ms;
    }
  }
}

=== FILE: text.dfy ===
/** The string operations the controllers and the connection code rely on. */
module Text {

  /** Go's strings.Contains(s, sub): sub occurs somewhere in s (the empty string occurs everywhere). */
  predicate Contains(s: string, sub: string)
    decreases |s|
  {
    sub <= s || (|s| > 0 && Contains(s[1..], sub))
  }

  /** An occurrence at a known position is an occurrence. */
  lemma {:induction false} ContainsAt(s: string, sub: string, i: nat)
    requires i + |sub| <= |s|
    requires s[i..i + |sub|] == sub
    ensures Contains(s, sub)
    decreases i
  {
    if i == 0 {
      assert sub <= s;
    } else {
      assert s[1..][i - 1..i - 1 + |sub|] == s[i..i + |sub|];
      ContainsAt(s[1..], sub, i - 1);
    }
  }

  /** An occurrence in a string is still an occurrence once something is put in front of it. */
  lemma {:induction false} ContainsAfterPrefix(a: string, b: string, sub: string)
    requires Contains(b, sub)
    ensures Contains(a + b, sub)
    decreases |a|
  {
    if a == [] {
      assert a + b == b;
    } else {
      assert (a + b)[1..] == a[1..] + b;
      ContainsAfterPrefix(a[1..], b, sub);
    }
  }

  /** The lower-case form of an ASCII letter; every other character is left alone. */
  function LowerChar(c: char): (d: char)
    ensures 'A' <= c <= 'Z' ==> 'a' <= d <= 'z'
    ensures !('A' <= c <= 'Z') ==> d == c
  {
    if 'A' <= c <= 'Z' then (c as int + 32) as char else c
  }

  function ToLower(s: string): (r: string)
    ensures |r| == |s|
    ensures forall i :: 0 <= i < |s| ==> r[i] == LowerChar(s[i])
  {
    seq(|s|, i requires 0 <= i < |s| => LowerChar(s[i]))
  }

  /** A case-insensitive substring test: `pattern` occurs in `s` when letter case is ignored. */
  predicate ContainsFold(s: string, pattern: string) {
    Contains(ToLower(s), ToLower(pattern))
  }

  /** Lower-casing twice is lower-casing once. */
  lemma ToLowerIdempotent(s: string)
    ensures ToLower(ToLower(s)) == ToLower(s)
  {
  }

  /** Case-folded matching does not see the case of either side. */
  lemma {:induction false} ContainsFoldIgnoresCase(s: string, pattern: string)
    ensures ContainsFold(s, pattern) <==> ContainsFold(ToLower(s), pattern)
    ensures ContainsFold(s, pattern) <==> ContainsFold(s, ToLower(pattern))
  {
    ToLowerIdempotent(s);
    ToLowerIdempotent(pattern);
  }
}

=== FILE: user_controller.dfy ===
/**
 Registration and login over the "User" collection. Password hashing and
 checking, token signing and the validator of the user record are
 capabilities passed in (Services); store failures and the worker missing
 the 10-second deadline are inputs.
 */
module UserController {
  import opened Wrappers
  import opened Models
  import opened Queries
  import opened Http

  const DuplicateEmail := "User with this email already exists"
  const InvalidCredentials := "Invalid credentials"
  const WrongPassword := "Wrong Password"
  /** The timeout text of the login handler, shorter than the other handlers'. */
  const LoginTimeout := "timeout"

  /** The claims both tokens are signed over. */
  datatype Claims = Claims(email: string, firstName: string, lastName: string, role: string, userId: string)

  function ClaimsOf(u: User): Claims {
    Claims(u.email, u.firstName, u.lastName, u.role, u.userId)
  }

  /**
   The capabilities the handlers call but whose code is not modelled:
   `hash` is bcrypt's GenerateFromPassword (None when it fails), `verify`
   is CompareHashAndPassword(stored hash, password) succeeding, the two
   signers issue the access and refresh tokens, and `validate` is the
   struct validator on a user record (None when it passes, else its error
   text).
   */
  datatype Services = Services(
    hash: string -> Option<string>,
    verify: (string, string) -> bool,
    signAccess: Claims -> Result<string, string>,
    signRefresh: Claims -> Result<string, string>,
    validate: User -> Option<string>)

  /** The user part of a registration response: it has no password field. */
  datatype PublicUser = PublicUser(id: string, username: string, email: string, role: string, favoriteGenres: seq<Genre>)

  datatype Registration = Registration(token: string, user: PublicUser)

  datatype UserLogin = UserLogin(email: string, password: string)

  datatype UserResponse = UserResponse(
    userId: string,
    firstName: string,
    lastName: string,
    email: string,
    role: string,
    favouriteGenres: seq<Genre>,
    token: string,
    refreshToken: string)

  predicate EmailTaken(users: seq<User>, email: string) {
    exists i :: 0 <= i < |users| && users[i].email == email
  }

  predicate UniqueEmails(users: seq<User>) {
    forall i, j :: 0 <= i < j < |users| ==> users[i].email != users[j].email
  }

  predicate UniqueIds(users: seq<User>) {
    forall i, j :: 0 <= i < j < |users| ==> users[i].userId != users[j].userId
  }

  /** CountDocuments({"email": email}). */
  function CountByEmail(users: seq<User>, email: string): (n: nat)
    ensures n <= |users|
    ensures n > 0 <==> EmailTaken(users, email)
  {
    if users == [] then 0
    else
      assert forall i :: 0 < i < |users| ==> users[i] == users[1..][i - 1];
      (if users[0].email == email then 1 else 0) + CountByEmail(users[1..], email)
  }

  function HasEmail(email: string): User -> bool {
    (u: User) => u.email == email
  }

  function HasId(id: string): User -> bool {
    (u: User) => u.userId == id
  }

  // ---------------------------------------------------------------------
  // Registration
  // ---------------------------------------------------------------------

  /**
   The record the worker builds from the submitted user before inserting it.
   The code reads the clock once per timestamp; the model gives both
   timestamps the one clock input `now`.
   */
  function NewRecord(candidate: User, hashed: string, freshId: string, now: int): User {
    candidate.(userId := freshId, createdAt := now, updatedAt := now, password := hashed)
  }

  /**
   The registration worker: count users with the email, refuse a taken
   email, fill in id, timestamps and hashed password, validate, insert.
   */
  function RegisterWorker(users: seq<User>, candidate: User, hashed: string, freshId: string, now: int,
                          svc: Services, countError: Option<string>, insertError: Option<string>)
    : (run: Run<seq<User>, User>)
    ensures countError.Some? ==> run == Run(users, Failure(countError.value))
    ensures countError.None? && EmailTaken(users, candidate.email) ==> run == Run(users, Failure(DuplicateEmail))
    ensures run.outcome.Failure? ==> run.store == users
    ensures run.outcome.Success? <==>
              && countError.None? && !EmailTaken(users, candidate.email)
              && svc.validate(NewRecord(candidate, hashed, freshId, now)).None? && insertError.None?
    ensures run.outcome.Success? ==>
              && run.outcome.value == NewRecord(candidate, hashed, freshId, now)
              && run.store == users + [run.outcome.value]
  {
    if countError.Some? then Run(users, Failure(countError.value))
    else if CountByEmail(users, candidate.email) > 0 then Run(users, Failure(DuplicateEmail))
    else
      var record := NewRecord(candidate, hashed, freshId, now);
      match svc.validate(record)
      case Some(e) => Run(users, Failure(e))
      case None =>
        if insertError.Some? then Run(users, Failure(insertError.value))
        else Run(users + [record], Success(record))
  }

  /** The status the handler answers a worker error with: only the duplicate-email text is a conflict. */
  function RegisterFailure(e: string): (r: Reply<Registration>)
    ensures r.Err? && r.message == e
    ensures r.status == StatusConflict <==> e == DuplicateEmail
    ensures r.status == StatusConflict || r.status == StatusInternalServerError
  {
    if e == DuplicateEmail then Err(StatusConflict, e) else Err(StatusInternalServerError, e)
  }

  /**
   POST /register. `body` is None when the JSON does not bind; `freshId`
   is the new ObjectID's hex form and `now` the clock reading.
   */
  function RegisterUser(users: seq<User>, body: Option<User>, svc: Services, freshId: string, now: int,
                        countError: Option<string>, insertError: Option<string>, late: bool)
    : (r: Step<seq<User>, Registration>)
    ensures body.None? ==> r == Step(users, Err(StatusBadRequest, "Invalid JSON"))
    ensures body.Some? && svc.hash(body.value.password).None? ==>
              r == Step(users, Err(StatusInternalServerError, "Failed to hash password"))
    ensures body.Some? && svc.hash(body.value.password).Some? && countError.None? && EmailTaken(users, body.value.email) ==>
              && r.store == users
              && r.reply == (if late then Err(StatusRequestTimeout, RequestTimeout) else Err(StatusConflict, DuplicateEmail))
    ensures r.store != users ==>
              && body.Some? && svc.hash(body.value.password).Some?
              && countError.None? && !EmailTaken(users, body.value.email) && insertError.None?
              && |r.store| == |users| + 1
              && r.store[..|users|] == users
              && r.store[|users|].email == body.value.email
              && r.store[|users|].userId == freshId
              && r.store[|users|].password == svc.hash(body.value.password).value
              && svc.validate(r.store[|users|]).None?
    ensures body.Some? && svc.hash(body.value.password).Some? &&
            svc.validate(NewRecord(body.value, svc.hash(body.value.password).value, freshId, now)).Some? ==>
              r.store == users
    ensures r.reply.status == StatusConflict ==> r.reply == Err(StatusConflict, DuplicateEmail) && r.store == users
    ensures r.reply.Err? && r.reply.status == StatusInternalServerError ==> r.reply.message != DuplicateEmail
    ensures r.reply.status in {StatusCreated, StatusBadRequest, StatusConflict, StatusInternalServerError, StatusRequestTimeout}
    ensures body.Some? && svc.hash(body.value.password).Some? ==>
              var record := NewRecord(body.value, svc.hash(body.value.password).value, freshId, now);
              var inserted := countError.None? && !EmailTaken(users, body.value.email)
                              && svc.validate(record).None? && insertError.None?;
              && (late ==> r.reply == Err(StatusRequestTimeout, RequestTimeout))
              && (!late && countError.Some? ==> r == Step(users, RegisterFailure(countError.value)))
              && (!late && countError.None? && !EmailTaken(users, body.value.email) && svc.validate(record).Some? ==>
                    r == Step(users, RegisterFailure(svc.validate(record).value)))
              && (!late && countError.None? && !EmailTaken(users, body.value.email) && svc.validate(record).None?
                  && insertError.Some? ==>
                    r == Step(users, RegisterFailure(insertError.value)))
              && (inserted ==> r.store == users + [record])
              && (!late && inserted && svc.signAccess(ClaimsOf(record)).Failure? ==>
                    r.reply == Err(StatusInternalServerError, "Failed to generate token"))
              && (r.reply.Ok? <==> !late && inserted && svc.signAccess(ClaimsOf(record)).Success?)
    ensures r.reply.Ok? ==> |r.store| == |users| + 1
    ensures r.reply.Ok? ==>
              var record := r.store[|users|];
              && r.reply.status == StatusCreated
              && r.reply.value.user == PublicUser(freshId, record.firstName + " " + record.lastName,
                                                  record.email, record.role, record.favouriteGenres)
              && record.firstName == body.value.firstName && record.lastName == body.value.lastName
              && record.role == body.value.role && record.favouriteGenres == body.value.favouriteGenres
              && svc.signAccess(ClaimsOf(record)) == Success(r.reply.value.token)
  {
    if body.None? then Step(users, Err(StatusBadRequest, "Invalid JSON"))
    else
      var candidate := body.value;
      match svc.hash(candidate.password)
      case None => Step(users, Err(StatusInternalServerError, "Failed to hash password"))
      case Some(hashed) =>
        var run := RegisterWorker(users, candidate, hashed, freshId, now, svc, countError, insertError);
        assert run.store != users ==> run.outcome.Success?;
        if late then Step(run.store, Err(StatusRequestTimeout, RequestTimeout))
        else match run.outcome
          case Failure(e) => Step(run.store, RegisterFailure(e))
          case Success(record) =>
            assert run.store[..|users|] == users;
            match svc.signAccess(ClaimsOf(record))
            case Failure(_) => Step(run.store, Err(StatusInternalServerError, "Failed to generate token"))
            case Success(token) =>
              var view := PublicUser(record.userId, record.firstName + " " + record.lastName,
                                     record.email, record.role, record.favouriteGenres);
              Step(run.store, Ok(StatusCreated, Registration(token, view)))
  }

  // ---------------------------------------------------------------------
  // Login
  // ---------------------------------------------------------------------

  /**
   UpdateAllTokens(userId, access, refresh): the first record with that id
   gets the new pair, overwriting the old one.
   */
  function UpdateAllTokens(users: seq<User>, userId: string, access: string, refresh: string): (r: seq<User>)
    ensures |r| == |users|
    ensures forall k :: 0 <= k < |users| ==>
              r[k].(token := users[k].token, refreshToken := users[k].refreshToken) == users[k]
    ensures forall k :: 0 <= k < |users| && r[k] != users[k] ==>
              users[k].userId == userId && forall j :: 0 <= j < k ==> users[j].userId != userId
    ensures forall k ::
              (&& 0 <= k < |users| && users[k].userId == userId
               && forall j :: 0 <= j < k ==> users[j].userId != userId) ==>
              r[k].token == access && r[k].refreshToken == refresh
  {
    match FirstIndex(users, HasId(userId))
    case None => users
    case Some(j) => users[j := users[j].(token := access, refreshToken := refresh)]
  }

  /** The user a login with this email reads: the first record with it. */
  predicate FirstWithEmail(users: seq<User>, email: string, i: int) {
    0 <= i < |users| && users[i].email == email && forall j :: 0 <= j < i ==> users[j].email != email
  }

  /** Whether a login of `cred` reaching the record at `i` gets both tokens signed. */
  predicate SignsIn(users: seq<User>, cred: UserLogin, svc: Services, i: int)
    requires 0 <= i < |users|
  {
    && svc.verify(users[i].password, cred.password)
    && svc.signAccess(ClaimsOf(users[i])).Success?
    && svc.signRefresh(ClaimsOf(users[i])).Success?
  }

  /** The login worker: find by email, check the password, sign both tokens, record them. */
  function LoginWorker(users: seq<User>, cred: UserLogin, svc: Services, updateError: Option<string>)
    : (run: Run<seq<User>, UserResponse>)
    ensures !EmailTaken(users, cred.email) ==> run == Run(users, Failure(InvalidCredentials))
    ensures forall i :: FirstWithEmail(users, cred.email, i) && !svc.verify(users[i].password, cred.password) ==>
              run == Run(users, Failure(WrongPassword))
    ensures run.outcome.Failure? ==> run.store == users
    ensures run.outcome.Success? <==>
              updateError.None? && exists i :: FirstWithEmail(users, cred.email, i) && SignsIn(users, cred, svc, i)
    ensures forall i :: FirstWithEmail(users, cred.email, i) && run.outcome.Success? ==>
              var u := users[i];
              && svc.signAccess(ClaimsOf(u)) == Success(run.outcome.value.token)
              && svc.signRefresh(ClaimsOf(u)) == Success(run.outcome.value.refreshToken)
              && run.outcome.value == UserResponse(u.userId, u.firstName, u.lastName, u.email, u.role,
                                                   u.favouriteGenres, run.outcome.value.token,
                                                   run.outcome.value.refreshToken)
              && run.store == UpdateAllTokens(users, u.userId, run.outcome.value.token, run.outcome.value.refreshToken)
  {
    // The handler also falls through to the password check when the lookup
    // fails with an error other than "no documents", with an empty user;
    // that path is not modelled: a lookup here finds a record or none.
    match FirstIndex(users, HasEmail(cred.email))
    case None => Run(users, Failure(InvalidCredentials))
    case Some(i) =>
      assert FirstWithEmail(users, cred.email, i);
      var u := users[i];
      if !svc.verify(u.password, cred.password) then Run(users, Failure(WrongPassword))
      else match svc.signAccess(ClaimsOf(u))
        case Failure(e) => Run(users, Failure(e))
        case Success(access) =>
          match svc.signRefresh(ClaimsOf(u))
          case Failure(e) => Run(users, Failure(e))
          case Success(refresh) =>
            if updateError.Some? then Run(users, Failure(updateError.value))
            else
              Run(UpdateAllTokens(users, u.userId, access, refresh),
                  Success(UserResponse(u.userId, u.firstName, u.lastName, u.email, u.role,
                                       u.favouriteGenres, access, refresh)))
  }

  /** POST /login. Every error the worker sends is answered with 401. */
  function Login(users: seq<User>, body: Option<UserLogin>, svc: Services, updateError: Option<string>, late: bool)
    : (r: Step<seq<User>, UserResponse>)
    ensures body.None? ==> r == Step(users, Err(StatusBadRequest, "Invalid JSON"))
    ensures body.Some? && !EmailTaken(users, body.value.email) ==>
              && r.store == users
              && r.reply == (if late then Err(StatusRequestTimeout, LoginTimeout) else Err(StatusUnauthorized, InvalidCredentials))
    ensures forall i ::
              (&& body.Some? && FirstWithEmail(users, body.value.email, i)
               && !svc.verify(users[i].password, body.value.password)) ==>
              && r.store == users
              && r.reply == (if late then Err(StatusRequestTimeout, LoginTimeout) else Err(StatusUnauthorized, WrongPassword))
    ensures r.reply.Err? ==> r.reply.status in {StatusBadRequest, StatusUnauthorized, StatusRequestTimeout}
    ensures body.Some? && late ==> r.reply == Err(StatusRequestTimeout, LoginTimeout)
    ensures body.Some? && !late && r.reply.Err? ==> r.reply.status == StatusUnauthorized
    ensures r.reply.Ok? <==>
              && body.Some? && !late && updateError.None?
              && exists i :: FirstWithEmail(users, body.value.email, i) && SignsIn(users, body.value, svc, i)
    ensures r.store != users ==>
              && body.Some? && updateError.None?
              && exists i :: FirstWithEmail(users, body.value.email, i) && SignsIn(users, body.value, svc, i)
    ensures !late && r.reply.Err? ==> r.store == users
    ensures |r.store| == |users|
    ensures forall k :: 0 <= k < |users| ==>
              r.store[k].(token := users[k].token, refreshToken := users[k].refreshToken) == users[k]
    ensures forall i :: body.Some? && FirstWithEmail(users, body.value.email, i) && r.reply.Ok? ==>
              var u := users[i];
              && r.reply.status == StatusOK
              && svc.signAccess(ClaimsOf(u)) == Success(r.reply.value.token)
              && svc.signRefresh(ClaimsOf(u)) == Success(r.reply.value.refreshToken)
              && r.reply.value == UserResponse(u.userId, u.firstName, u.lastName, u.email, u.role,
                                               u.favouriteGenres, r.reply.value.token, r.reply.value.refreshToken)
              && r.store == UpdateAllTokens(users, u.userId, r.reply.value.token, r.reply.value.refreshToken)
  {
    if body.None? then Step(users, Err(StatusBadRequest, "Invalid JSON"))
    else
      var run := LoginWorker(users, body.value, svc, updateError);
      if late then Step(run.store, Err(StatusRequestTimeout, LoginTimeout))
      else match run.outcome
        case Failure(e) => Step(run.store, Err(StatusUnauthorized, e))
        case Success(response) => Step(run.store, Ok(StatusOK, response))
  }
}

=== FILE: user_properties.dfy ===
/** Invariants of the user collection and the register-then-login round trip. */
module UserProperties {
  import opened Wrappers
  import opened Models
  import opened Queries
  import opened Http
  import opened UserController

  /** Registration never creates a second user with an email already present. */
  lemma RegisterKeepsEmailsUnique(users: seq<User>, body: Option<User>, svc: Services, freshId: string, now: int,
                                  countError: Option<string>, insertError: Option<string>, late: bool)
    requires UniqueEmails(users)
    ensures UniqueEmails(RegisterUser(users, body, svc, freshId, now, countError, insertError, late).store)
  {
    var after := RegisterUser(users, body, svc, freshId, now, countError, insertError, late).store;
    if after != users {
      assert after == users + [after[|users|]];
      forall i | 0 <= i < |users| ensures users[i].email != after[|users|].email {
        assert !EmailTaken(users, body.value.email);
      }
    }
  }

  /** With an id no stored user has, registration keeps user ids unique. */
  lemma RegisterKeepsIdsUnique(users: seq<User>, body: Option<User>, svc: Services, freshId: string, now: int,
                               countError: Option<string>, insertError: Option<string>, late: bool)
    requires UniqueIds(users)
    requires forall i :: 0 <= i < |users| ==> users[i].userId != freshId
    ensures UniqueIds(RegisterUser(users, body, svc, freshId, now, countError, insertError, late).store)
  {
    var after := RegisterUser(users, body, svc, freshId, now, countError, insertError, late).store;
    if after != users {
      assert after == users + [after[|users|]];
    }
  }

  /** Login only rewrites tokens, so the uniqueness of emails and ids survives it. */
  lemma LoginKeepsKeysUnique(users: seq<User>, body: Option<UserLogin>, svc: Services,
                             updateError: Option<string>, late: bool)
    requires UniqueEmails(users) && UniqueIds(users)
    ensures var after := Login(users, body, svc, updateError, late).store;
            UniqueEmails(after) && UniqueIds(after)
  {
    var after := Login(users, body, svc, updateError, late).store;
    forall k | 0 <= k < |users|
      ensures after[k].email == users[k].email && after[k].userId == users[k].userId
    {
      assert after[k].(token := users[k].token, refreshToken := users[k].refreshToken) == users[k];
    }
  }

  /**
   Someone who has just registered can log in with the same email and
   password, provided the password checker accepts the stored hash and both
   signers succeed; the login answers with the new user's id.
   */
  lemma RegisterThenLogin(users: seq<User>, u: User, svc: Services, freshId: string, now: int)
    requires RegisterUser(users, Some(u), svc, freshId, now, None, None, false).reply.Ok?
    requires svc.hash(u.password).Some?
    requires svc.verify(svc.hash(u.password).value, u.password)
    requires svc.signAccess(ClaimsOf(NewRecord(u, svc.hash(u.password).value, freshId, now))).Success?
    requires svc.signRefresh(ClaimsOf(NewRecord(u, svc.hash(u.password).value, freshId, now))).Success?
    ensures var after := RegisterUser(users, Some(u), svc, freshId, now, None, None, false).store;
            var login := Login(after, Some(UserLogin(u.email, u.password)), svc, None, false);
            && login.reply.Ok?
            && login.reply.value.userId == freshId
            && login.reply.value.email == u.email
  {
    var hashed := svc.hash(u.password).value;
    var record := NewRecord(u, hashed, freshId, now);
    var after := RegisterUser(users, Some(u), svc, freshId, now, None, None, false).store;
    assert !EmailTaken(users, u.email);
    assert after == users + [record];
    var found := FirstIndex(after, HasEmail(u.email));
    assert found == Some(|users|) by {
      assert HasEmail(u.email)(after[|users|]);
      forall j | 0 <= j < |users| ensures !HasEmail(u.email)(after[j]) {
        assert after[j] == users[j];
      }
    }
  }

  /**
   An unknown email and a wrong password are both answered with 401, but
   with different texts: the handler does tell the two apart.
   */
  lemma LoginFailuresShareStatus(users: seq<User>, cred: UserLogin, svc: Services, i: nat)
    requires FirstWithEmail(users, cred.email, i)
    requires !svc.verify(users[i].password, cred.password)
    ensures var unknown := Login(users[..i], Some(cred), svc, None, false).reply;
            var wrong := Login(users, Some(cred), svc, None, false).reply;
            && unknown.status == wrong.status == StatusUnauthorized
            && unknown.message == InvalidCredentials && wrong.message == WrongPassword
  {
    assert !EmailTaken(users[..i], cred.email);
  }
}

=== FILE: wrappers.dfy ===
/** Optional values and outcomes shared by every module of the model. */
module Wrappers {

  /** A value that may be absent: Go's nil pointer or nil slice. */
  datatype Option<+T> = None | Some(value: T)

  /** The (value, error) pair a Go call returns, with exactly one side present. */
  datatype Result<+T, +E> = Success(value: T) | Failure(error: E)
}
